=== FILE: README.md ===
# URL downloader: a Dafny model of its core logic

The service is a small Flask application (`app.py`). A user posts a URL and an optional file name. The server checks the URL and picks a file name. A background worker then streams the URL's body into a hidden partial file `.{name}.part` and renames it to `{name}` once the body is complete. The worker publishes its progress in a job registry keyed by a random id. The `/status/<id>` page reads that registry, and the `/list` page shows the finished files.

This project models the sequential logic inside that application:

- `Sanitizer` is `safe_filename_from_url`. It takes the last path segment, drops forbidden characters, truncates to 180 characters and falls back to `download.bin`.
- `Launcher` is the URL gate and the name choice of `download_file`.
- `Jobs` and `Storage` hold the registry records and the download directory.
- `Worker` is `download_worker`, written as a pure function. It maps what the network and the file system do to two things: the sequence of records the job's registry entry goes through, and the directory it leaves behind.
- `Status` is the `/status` view, including the `"?"` progress branch.
- `Listing` is the `/list` filter: sorted order, regular files only, no `.part` names.
- `Server` connects a submission to its job.
- `Text` (Python's `strip`, `lower`, `startswith`, `endswith`) and `Ordering` (the order `sorted` uses on strings) are the library pieces the modules above rely on.

Inputs the code takes from outside are parameters of the model:

- `pathOf` is `unquote(urlparse(url).path)`. It gives `None` for a URL that `urlparse` refuses with `ValueError`, such as `http://[x/a.pdf`.
- `printable` is `str.isprintable`. The model assumes only that it holds on ASCII `' '..'~'`.
- `freshId` is `uuid.uuid4()`.
- A `Worker.Fetch` value says which stage of the download raises, with which message, and which chunk lengths the body delivers.
- `removeSucceeds` says whether the cleanup `os.remove` succeeds.

Where the intended behaviour described for this service and the code differ, the model follows `app.py`:

- A non-empty custom name is used verbatim. It is never sanitised (app.py:90), so names such as `../../etc/passwd` reach the worker unchanged. See `Launcher.CustomNameVerbatim`.
- The base name of a decoded path can be `..` (`Sanitizer.DotDotSurvives`).
- A job ends `finished` without comparing the byte count with the declared length (`Worker.ShortBodyFinishes`).
- A failure to remove the partial file is swallowed, so that file may remain (`Worker.DownloadFailureCleanup`).

## Model

| member | source | states |
|---|---|---|
| Text.Strip | app.py:86-87 | The result is the part of the input between its leading and trailing Python whitespace. Every removed character is whitespace, and the result neither starts nor ends with whitespace. It is empty exactly when the input is all whitespace. |
| Text.StripUnblanked | app.py:86-87 | A string without whitespace at either end is returned unchanged by strip. |
| Text.Lower | app.py:88 | `lower()` keeps the length and lowers each character in place. |
| Text.LowerStartsWith | app.py:88 | The lowered string starts with a prefix exactly when each leading character lowers to the prefix's character. |
| Ordering.LessTransitive | app.py:123 | The string order used by `sorted` is transitive. |
| Ordering.LessTotal | app.py:123 | Any two distinct strings are ordered one way or the other. |
| Ordering.Sort | app.py:123 | `sorted` of distinct names is strictly increasing, has the same length and holds the same names. |
| Ordering.SortedUnique | app.py:123 | Two strictly sorted sequences with the same members are equal, so the sorted order is unique. |
| Sanitizer.Basename | app.py:33-34 | `basename` is the suffix after the last `/`. It holds no `/`, and a `/` precedes it whenever it is shorter than the path. |
| Sanitizer.BasenameOfLastSegment | app.py:34 | For `dir + "/" + name` with a slash-free `name`, the base name is `name`. |
| Sanitizer.Filter | app.py:36 | The filter keeps only printable characters other than newline, carriage return, tab, `/` and `\`, and it never grows the string. |
| Sanitizer.FilterContents | app.py:36 | The filter's output is an order-preserving subsequence of its input. It holds every kept character exactly as often as the input does, and no removed character. |
| Sanitizer.FilterIdentity | app.py:36 | The filter returns its input unchanged exactly when every character is kept. |
| Sanitizer.FilterEmpty | app.py:36-37 | The filter yields nothing exactly when no character is kept. |
| Sanitizer.SafeFilename | app.py:30-37 | The result is the fallback or a clean name: non-empty, at most 180 characters, only kept characters. |
| Sanitizer.FallbackClean | app.py:30 | `download.bin` is itself clean and passes the filter unchanged. |
| Sanitizer.SafeFilenameClean | app.py:34-37 | With a clean fallback, every result is non-empty and at most 180 characters long. It contains no `\n`, `\r`, `\t`, `/`, `\` or unprintable character, for every decoded path. |
| Sanitizer.DefaultFallbackClean | app.py:30-37 | With the default fallback, every result is clean for every decoded path. |
| Sanitizer.SafeFilenameDerivation | app.py:33-37 | The result is the fallback when the base name filters to nothing (an empty base name included). Otherwise it is the first 180 characters of the filtered base name. |
| Sanitizer.SafeFilenameKeepsCleanName | app.py:33-37 | A base name that is already clean and at most 180 characters comes back unchanged. |
| Sanitizer.SafeFilenameIdempotent | app.py:30-37 | Sanitising a sanitised name again gives the same name. |
| Sanitizer.ReportExample | app.py:33-37 | The decoded path `/files/report.pdf` gives `report.pdf`. |
| Sanitizer.CleanSegmentExample | app.py:33-37 | A plain-ASCII last segment of 1 to 180 characters, free of slashes, is the name. |
| Sanitizer.FallbackExamples | app.py:34-37 | A path ending in `/`, and a last segment made only of removed characters, both give the fallback. |
| Sanitizer.DotDotSurvives | app.py:34 | The decoded path `/a/..` is sanitised to `..`. |
| Launcher.ReadForm | app.py:86-87 | Each field is the submitted text (the empty string when the field is missing) with surrounding whitespace stripped. Neither field starts or ends with whitespace. |
| Launcher.Decide | app.py:88-92 | The request is rejected, with code 400 and the error message, exactly when the URL's lower-case form starts with neither `http://` nor `https://`. A web URL with no custom name that `urlparse` refuses makes the handler fail with a 500; with a custom name the URL is never parsed. Only an accepted request carries a job id, the fresh one. An accepted request carries the URL and a non-empty file name. That name is the custom name when it is non-empty, otherwise the sanitiser's output. |
| Launcher.DownloadFile | app.py:86-92 | The same decision stated on the raw fields: rejection exactly when the stripped URL fails the scheme test, and then always with code 400 and the invalid-URL message. An accepted request carries the stripped URL and a non-empty file name: the stripped custom name or the sanitiser's output. |
| Launcher.WebUrl | app.py:88 | Every URL starting with `http://` or `https://` passes the scheme test. |
| Launcher.SchemeIgnoresCase | app.py:88 | `HTTPS://...` and `Http://...` pass the scheme test. |
| Launcher.SchemeRejectsOthers | app.py:88 | `ftp://...`, `httpx://...` and the empty URL fail the scheme test. |
| Launcher.BlanksAroundUrl | app.py:86 | Blanks around the URL are stripped before the test. |
| Launcher.FtpRejected | app.py:88-89 | `ftp://example.com/x` is answered with 400 and the error message, and no job id. |
| Launcher.UnparsableUrl | app.py:90 | `http://[x/a.pdf`, which `urlparse` refuses, gives a 500 without a custom name and is accepted under the custom name when one is given. |
| Launcher.ReportPdfScenario | app.py:86-92 | `https://example.com/files/report.pdf` without a custom name is accepted under the fresh id with file name `report.pdf`. |
| Launcher.CustomNameVerbatim | app.py:87-90 | For a web URL, a custom name without blanks at its ends is the file name unchanged, even when it holds `/` or `..`. |
| Jobs.MarkFinished | app.py:59 | Marking a record finished changes only its status. The file name, `total` and `downloaded` are kept. |
| Storage.PartName | app.py:43 | The partial name is hidden (it starts with `.`), holds the final name right after the dot, ends in `.part`, and never equals the final name. |
| Storage.PartNameInjective | app.py:43 | Different final names get different partial names. |
| Storage.RemovePartial | app.py:62-66 | Cleanup removes the partial file only when it is a file and removal succeeds. Every other entry is untouched. |
| Storage.Publish | app.py:58 | The rename moves the partial file's content to the final name and removes the partial name. Every other entry is untouched. |
| Worker.NonEmpty | app.py:54 | The `if chunk:` test lets every non-empty chunk through, as often as it occurs, and drops every empty one. |
| Worker.Received | app.py:53-57 | The chunks stored are a prefix of the body's chunks. An unbroken stream stores every chunk. A stream that breaks after `n` chunks stores exactly `n`, or all of them when the body has fewer. |
| Worker.Progress | app.py:53-57 | The chunk loop writes only `downloading` records with the job's name and total. Every counter exceeds the count before the loop. |
| Worker.Abort | app.py:60-66 | A failure appends one `error` record carrying only the file name and the message; the records before it stay. Removing the partial file touches no other entry. The partial file is gone exactly when it was a file and its removal succeeded; otherwise it stays with its content. |
| Worker.SumNonEmpty | app.py:54-56 | Skipping empty chunks does not change the byte count. |
| Worker.ProgressLength | app.py:53-57 | The loop writes one record per non-empty chunk and none for an empty chunk. |
| Worker.ProgressCounts | app.py:53-57 | The i-th record's `downloaded` is the sum of the lengths of the first i+1 non-empty chunks. |
| Worker.ProgressAt | app.py:53-57 | The same statement for a single record, by induction on the chunks. |
| Worker.ProgressLast | app.py:53-57 | The last record counts every byte received, and no record at all means no byte was received. |
| Worker.ProgressIncreasing | app.py:53-57 | `downloaded` strictly increases along the loop's records. |
| Worker.ProgressOrdered | app.py:53-57 | The same statement for one pair of records, by induction on the chunks. |
| Worker.Download | app.py:45-46 | Every run begins with the `starting` record and has at least one more record. |
| Worker.Transfer | app.py:49-51 | Once the response is read, the trace begins `starting`, then `downloading` with 0 downloaded, and ends in a further record. |
| Worker.DownloadShape | app.py:42-66 | The trace is `starting`, then only `downloading` records, then a terminal record, all under the job's file name. |
| Worker.TransferShape | app.py:49-66 | The same lifecycle for the part of the run after the response is read. |
| Worker.DownloadOutcome | app.py:58-61 | When no stage raises, the last record is `finished` with the declared total and the sum of all chunk lengths. Otherwise the last record is an `error` record holding only the file name and the message of the first failing stage. |
| Worker.TransferFinishes | app.py:52-59 | A transfer without faults ends `finished` with every byte counted. |
| Worker.DownloadEarlyFailure | app.py:45-61 | A request error, a bad status or an unparsable length gives exactly `[starting, error]` with no `downloading` record. Only a stale partial file may be removed, and no entry is created. |
| Worker.DownloadBegins | app.py:49-51 | With a response, the second record is `downloading` with 0 downloaded and the declared length as total (0 when absent). |
| Worker.TransferTrace | app.py:49-61 | A transfer's trace is `starting`, `downloading` at 0, one record per non-empty chunk received, and one final record. |
| Worker.DownloadProgressMonotone | app.py:50-59 | Across the records that carry progress, `total` never changes and `downloaded` never decreases, through to `finished`. |
| Worker.DownloadTotals | app.py:49-59 | Every record with progress reports the declared length (0 when absent). |
| Worker.TransferMonotone | app.py:50-59 | The monotone-progress property for the part of the run after the response is read. |
| Worker.MonotoneOfParts | app.py:50-59 | Starting, downloading at 0, strictly increasing counters, then an error or a `finished` that repeats the last counter: such a trace has monotone progress. |
| Worker.DownloadSuccess | app.py:43-59 | On success the final name holds a file of all the bytes and the partial name is gone. The last two records are the last `downloading` record and the same record marked `finished`. Every other entry is untouched. |
| Worker.DownloadFailureCleanup | app.py:60-66 | On any failure every entry other than the partial file is untouched. The partial file is gone unless its removal failed or a folder sits in its place. |
| Worker.ShortBodyFinishes | app.py:49-59 | A 4-byte body under `Content-Length: 10` still ends `finished` with 4 of 10 bytes. |
| Worker.NotFoundScenario | app.py:45-61 | A 404 gives `[starting, error]`, and without a stale partial file the directory is unchanged. |
| Status.PercentOf | app.py:107-109 | Progress is `"?"` exactly when total is 0. Otherwise it is the ratio whose product with total equals 100 times downloaded. |
| Status.StatusOf | app.py:103-117 | An unknown id gets 404 with the not-found message. A downloading job shows its name, counters and progress. Any other record is returned as stored. |
| Status.PercentInRange | app.py:109 | A count within a positive total reads between 0 and 100 percent. |
| Status.UnknownLengthShowsQuestionMark | app.py:107-109 | A job whose response declares no length shows `"?"` whenever it is downloading. |
| Listing.Links | app.py:125-128 | The loop keeps exactly the entries that are regular files whose names do not end in `.part`. |
| Listing.LinksSorted | app.py:123-128 | Filtering a sorted listing keeps it sorted. |
| Listing.ListFiles | app.py:123-128 | The page lists, in strictly sorted order, exactly the regular files whose names do not end in `.part`. |
| Listing.ListingOrderFree | app.py:123 | The page does not depend on the order in which `os.listdir` returns the names. |
| Listing.PartNeverShown | app.py:127 | A partial file `.{name}.part` is never listed. |
| Server.RunJob | app.py:42-66 | A job run under a fresh id adds exactly that id to the registry. Its record is terminal and carries the chosen file name, and every other job keeps its record. |
| Server.Submit | app.py:86-92 | A rejected submission, or one whose URL `urlparse` refuses without a custom name, changes neither the registry nor the directory. An accepted one registers its job under the fresh id with the reply's file name. |
| Server.RejectedLeavesNoJob | app.py:88-89 | A URL without an `http://` or `https://` scheme starts no job, so the id it would have used still answers 404 with the not-found message. |
| Server.UnparsableLeavesNoJob | app.py:90-92 | A web URL that `urlparse` refuses, sent without a custom name, gets a 500, changes nothing, and its would-be id still answers 404. |
| Server.JobFinished | app.py:58-59 | After a successful job, status shows the `finished` record with every byte counted, the file exists and the partial file does not. |
| Server.FinishedFileListed | app.py:123-128 | After a successful job, the list page shows the file exactly when its name does not end in `.part`. |

## Left out

- Flask routing, form decoding, the HTML pages, the index page and the file-serving routes (app.py:68-80, 93-97, 130-147) are I/O and markup.
- `check_auth`/`require_auth` (app.py:17-28) read the Flask request object. Every modelled route is modelled as if authentication passed.
- Environment configuration and `os.makedirs` (app.py:8-14) are set-up, not logic.
- `requests.get` (timeouts, redirects, TLS, `raise_for_status`, `iter_content`) is replaced by the `Worker.Fetch` outcome. The model does not derive which stage fails from the URL.
- Which file-system call fails (`open`, `os.replace`, `os.remove`) is an input. A folder sitting where a file should go is not turned into that failure automatically.
- `threading.Thread` and concurrent access to `DOWNLOAD_STATUS` (app.py:40, 92) are left out. The registry is a plain map. One job's records form a sequence, and `Server.RunJob` stores only the last one. Interleavings of several jobs are not modelled.
- `uuid.uuid4` (app.py:91) is replaced by a supplied id not yet in the registry.
- The body of Flask's 500 page is left out. The model keeps only the status code 500.
- The percentage string `f"{...:.1f}%"` (app.py:109) is left out. The model keeps the exact ratio as a real number and the `"?"` branch.
- Text.Lower: lowers ASCII letters only, not full Unicode `str.lower`. The scheme test is unaffected. The only non-ASCII characters whose lower case starts with an ASCII character are the Kelvin sign (`k`) and `İ` (`i` plus a combining dot), and neither letter occurs in `http://` or `https://`. So a non-ASCII character at a position the prefix covers (the first 7 for `http://`, the first 8 for `https://`) makes that prefix fail under both definitions.
- Sanitizer.SafeFilename: `str.isprintable` and `unquote(urlparse(url).path)` are parameters, not the Unicode tables or RFC 3986 parsing. Which URLs `urlparse` refuses is part of the `pathOf` parameter, not derived from the URL. The only assumption is that `isprintable` holds on printable ASCII.
- `os.path.join(DOWNLOAD_DIR, name)` with a custom name that holds `/` or is absolute is not resolved to a real path. The directory is a flat map from the joined name to its entry, so writes outside the download directory are not modelled.
- The `if not st` test (app.py:104) is modelled as absence from the registry, because every stored record is a non-empty dictionary.
- A chunk is modelled as written whole or not at all. A write that fails half-way through a chunk, and an error raised while the `with` blocks close, are both folded into `BrokenAfter`.
- `os.path.isfile` and `os.path.exists` see only two kinds of entry, files and folders. Symbolic links and other special files are not modelled.

=== FILE: jobs.dfy ===
/**
 The job records `download_worker` stores in the `DOWNLOAD_STATUS` registry
 (app.py:40-66), one variant per shape of the dictionary it writes.
 */
module Jobs {

  /** A registry record. The Python dictionaries are
      `{status: "starting", filename}`,
      `{status: "downloading", filename, total, downloaded}`,
      the same dictionary with status switched to "finished", and
      `{status: "error", filename, error}`. */
  datatype Record =
    | Starting(filename: string)
    | Downloading(filename: string, total: int, downloaded: nat)
    | Finished(filename: string, total: int, downloaded: nat)
    | Failed(filename: string, error: string)
  {
    /** The `status` field's string. */
    function Status(): string
    {
      match this
      case Starting(_) => "starting"
      case Downloading(_, _, _) => "downloading"
      case Finished(_, _, _) => "finished"
      case Failed(_, _) => "error"
    }

    /** No transition leaves this record. */
    predicate Terminal()
    {
      Finished? || Failed?
    }
  }

  /** `DOWNLOAD_STATUS`: job id to record. */
  type Registry = map<string, Record>

  /** `DOWNLOAD_STATUS[job_id]["status"] = "finished"`: the status field alone
      changes; a record without a progress part has nothing to keep. */
  function MarkFinished(r: Record): (f: Record)
    requires r.Downloading?
    ensures f.Finished? && f.Status() == "finished"
    ensures f.filename == r.filename && f.total == r.total && f.downloaded == r.downloaded
  {
    Finished(r.filename, r.total, r.downloaded)
  }

  /** Records that carry `total` and `downloaded`. */
  predicate HasProgress(r: Record)
  {
    r.Downloading? || r.Finished?
  }

  /** The lifecycle of one job's entry: `starting` first, `downloading` in
      between, a terminal record last, and the same file name throughout. */
  predicate Lifecycle(t: seq<Record>, name: string)
  {
    && |t| >= 2
    && t[0] == Starting(name)
    && t[|t| - 1].Terminal()
    && (forall i :: 0 < i < |t| - 1 ==> t[i].Downloading?)
    && (forall i :: 0 <= i < |t| ==> t[i].filename == name)
  }

  /** Along the records that carry progress, `total` stays put and
      `downloaded` never decreases. */
  predicate ProgressMonotone(t: seq<Record>)
  {
    forall i, j :: 0 < i < j < |t| && !t[j].Failed? ==>
      && HasProgress(t[i]) && HasProgress(t[j])
      && t[i].total == t[j].total
      && t[i].downloaded <= t[j].downloaded
  }
}

=== FILE: launcher.dfy ===
/**
 The URL gate and name choice of `download_file` (app.py:82-92): strip the
 form fields, accept only http(s) URLs, pick the file name, and hand the
 stripped URL, the name and a fresh job id to the worker.

 `pathOf` stands for `unquote(urlparse(url).path)`, with `None` where
 `urlparse` raises `ValueError` (a bracketed host that is not a valid IPv6
 address, say); `printable` stands for `str.isprintable`; `freshId` is the
 value `str(uuid.uuid4())` would give.
 */
module Launcher {
  import opened Wrappers
  import opened Text
  import Sanitizer

  /** Reply body of a rejected request. */
  const InvalidUrlMessage: string := "Geçerli bir URL girin (http/https)."

  /** What the handler answers. `Crashed` is the 500 Flask sends when the
      handler raises: the job id is never drawn and no worker is started. */
  datatype Reply =
    | Rejected(code: int, message: string)
    | Crashed(code: int)
    | Accepted(jobId: string, url: string, filename: string)

  /** `url.lower().startswith(("http://", "https://"))`. */
  predicate HasWebScheme(url: string)
  {
    StartsWith(Lower(url), "http://") || StartsWith(Lower(url), "https://")
  }

  /** The two form fields after `.strip()`; a missing field reads as "". */
  datatype Form = Form(url: string, customName: string)

  /** `request.form.get("url", "").strip()` and
      `(request.form.get("name") or "").strip()`. */
  function ReadForm(urlField: Option<string>, nameField: Option<string>): (f: Form)
    ensures f.url == Strip(urlField.GetOr("")) && f.customName == Strip(nameField.GetOr(""))
    ensures urlField.None? ==> f.url == []
    ensures nameField.None? ==> f.customName == []
    ensures f.url == [] || (!IsSpace(f.url[0]) && !IsSpace(f.url[|f.url| - 1]))
    ensures f.customName == [] || (!IsSpace(f.customName[0]) && !IsSpace(f.customName[|f.customName| - 1]))
  {
    Form(Strip(urlField.GetOr("")), Strip(nameField.GetOr("")))
  }

  /** The decision of the handler on the stripped fields: reject a URL
      without a web scheme, otherwise pick the file name. The URL is parsed
      only when no custom name is given (`custom_name or ...` stops at a
      non-empty name), and a parse error escapes the handler. Only an
      accepted request carries a job id, so no job and no worker exist for
      the others. */
  function Decide(form: Form, freshId: string, pathOf: string -> Option<string>, printable: char -> bool): (r: Reply)
    ensures r.Rejected? <==> !HasWebScheme(form.url)
    ensures r.Rejected? ==> r.code == 400 && r.message == InvalidUrlMessage
    ensures r.Crashed? <==> HasWebScheme(form.url) && form.customName == [] && pathOf(form.url).None?
    ensures r.Crashed? ==> r.code == 500
    ensures r.Accepted? ==> r.jobId == freshId && r.url == form.url
    ensures r.Accepted? ==> r.filename != []
    ensures r.Accepted? && form.customName != [] ==> r.filename == form.customName
    ensures r.Accepted? && form.customName == [] ==>
      pathOf(r.url).Some? && r.filename == Sanitizer.SafeFilename(pathOf(r.url).value, printable, Sanitizer.Fallback)
  {
    if !HasWebScheme(form.url) then
      Rejected(400, InvalidUrlMessage)
    else if form.customName != [] then
      Accepted(freshId, form.url, form.customName)
    else
      match pathOf(form.url)
      case None => Crashed(500)
      case Some(path) => Accepted(freshId, form.url, Sanitizer.SafeFilename(path, printable, Sanitizer.Fallback))
  }

  /** The POST /download handler, authentication aside. */
  function DownloadFile(urlField: Option<string>, nameField: Option<string>, freshId: string,
                        pathOf: string -> Option<string>, printable: char -> bool): (r: Reply)
    ensures r.Rejected? <==> !HasWebScheme(Strip(urlField.GetOr("")))
    ensures r.Rejected? ==> r.code == 400 && r.message == InvalidUrlMessage
    ensures r.Crashed? <==>
      HasWebScheme(Strip(urlField.GetOr(""))) && Strip(nameField.GetOr("")) == [] && pathOf(Strip(urlField.GetOr(""))).None?
    ensures r.Crashed? ==> r.code == 500
    ensures r.Accepted? ==> r.filename != []
    ensures r.Accepted? ==> r.jobId == freshId && r.url == Strip(urlField.GetOr(""))
    ensures r.Accepted? && Strip(nameField.GetOr("")) != [] ==> r.filename == Strip(nameField.GetOr(""))
    ensures r.Accepted? && Strip(nameField.GetOr("")) == [] ==>
      pathOf(r.url).Some? && r.filename == Sanitizer.SafeFilename(pathOf(r.url).value, printable, Sanitizer.Fallback)
  {
    Decide(ReadForm(urlField, nameField), freshId, pathOf, printable)
  }

  /** Every URL written with an http:// or https:// prefix passes the scheme test. */
  lemma WebUrl(scheme: string, rest: string)
    requires scheme == "http://" || scheme == "https://"
    ensures HasWebScheme(scheme + rest)
  {
    var u := scheme + rest;
    assert forall i :: 0 <= i < |scheme| ==> u[i] == scheme[i] && LowerChar(scheme[i]) == scheme[i];
    LowerStartsWith(u, scheme);
  }

  /** The scheme test ignores ASCII case. */
  lemma SchemeIgnoresCase(u: string)
    requires u == "HTTPS://example.com/" || u == "Http://x"
    ensures HasWebScheme(u)
  {
    if u == "HTTPS://example.com/" {
      LowerStartsWith(u, "https://");
    } else {
      LowerStartsWith(u, "http://");
    }
  }

  /** Other schemes, and look-alikes of http, are refused by the scheme test. */
  lemma SchemeRejectsOthers(u: string)
    requires u == "ftp://example.com/x" || u == "httpx://example.com/" || u == ""
    ensures !HasWebScheme(u)
  {
    LowerStartsWith(u, "http://");
    LowerStartsWith(u, "https://");
    if u == "ftp://example.com/x" {
      assert LowerChar(u[0]) != 'h';
    } else if u != "" {
      assert LowerChar(u[4]) != ':' && LowerChar(u[4]) != 's';
    }
  }

  /** Blanks around the URL are stripped before the test. */
  lemma BlanksAroundUrl(u: string)
    requires u == " https://x\n"
    ensures Strip(u) == "https://x"
  {
    assert TrimStart(u) == u[1..];
    assert u[1..][..|u| - 2] == "https://x";
    assert TrimEnd(u[1..]) == TrimEnd(u[1..][..|u| - 2]);
    StripUnblanked("https://x");
  }

  /** An ftp URL is refused with status 400 and no job id. */
  lemma FtpRejected(url: string, nameField: Option<string>, freshId: string, pathOf: string -> Option<string>, printable: char -> bool)
    requires url == "ftp://example.com/x"
    ensures DownloadFile(Some(url), nameField, freshId, pathOf, printable) == Rejected(400, InvalidUrlMessage)
  {
    SchemeRejectsOthers(url);
    StripUnblanked(url);
  }

  /** A web URL whose last character is not a blank is its own strip and
      passes the scheme test. */
  lemma WebUrlUnblanked(scheme: string, rest: string)
    requires scheme == "http://" || scheme == "https://"
    requires rest != [] && !IsSpace(rest[|rest| - 1])
    ensures Strip(scheme + rest) == scheme + rest && HasWebScheme(scheme + rest)
  {
    var u := scheme + rest;
    assert u[0] == 'h' && u[|u| - 1] == rest[|rest| - 1];
    StripUnblanked(u);
    WebUrl(scheme, rest);
  }

  lemma SchemeOfReportUrl(url: string)
    requires url == "https://example.com/files/report.pdf"
    ensures Strip(url) == url && HasWebScheme(url)
  {
    var rest := "example.com/files/report.pdf";
    assert url == "https://" + rest;
    WebUrlUnblanked("https://", rest);
  }

  /** Without a custom name the file is named after the URL's last path segment. */
  lemma ReportPdfScenario(url: string, freshId: string, pathOf: string -> Option<string>, printable: char -> bool)
    requires url == "https://example.com/files/report.pdf"
    requires pathOf(url) == Some("/files/report.pdf")
    requires Sanitizer.AsciiPrintable(printable)
    ensures DownloadFile(Some(url), None, freshId, pathOf, printable) == Accepted(freshId, url, "report.pdf")
  {
    SchemeOfReportUrl(url);
    StripUnblanked("");
    Sanitizer.ReportExample(pathOf(url).value, printable, Sanitizer.Fallback);
  }

  /** A web URL that `urlparse` refuses, such as `http://[x/a.pdf` with its
      unclosed IPv6 bracket, crashes the handler when no custom name is
      given, and is accepted under the custom name when one is. */
  lemma UnparsableUrl(url: string, name: string, freshId: string, pathOf: string -> Option<string>, printable: char -> bool)
    requires url == "http://[x/a.pdf" && pathOf(url).None?
    requires name == "a.pdf"
    ensures DownloadFile(Some(url), None, freshId, pathOf, printable) == Crashed(500)
    ensures DownloadFile(Some(url), Some(name), freshId, pathOf, printable) == Accepted(freshId, url, name)
  {
    SchemeOfBracketUrl(url);
    assert name[0] == 'a' && name[|name| - 1] == 'f';
    StripUnblanked(name);
    StripUnblanked("");
  }

  lemma SchemeOfBracketUrl(url: string)
    requires url == "http://[x/a.pdf"
    ensures Strip(url) == url && HasWebScheme(url)
  {
    var rest := "[x/a.pdf";
    assert url == "http://" + rest;
    WebUrlUnblanked("http://", rest);
  }

  /** A custom name is taken verbatim: any name without blanks at its ends,
      "../../etc/passwd" included, becomes the file name unchanged, because only
      names derived from the URL are sanitised. */
  lemma CustomNameVerbatim(url: string, name: string, freshId: string, pathOf: string -> Option<string>, printable: char -> bool)
    requires HasWebScheme(url) && !IsSpace(url[0]) && !IsSpace(url[|url| - 1])
    requires name != [] && !IsSpace(name[0]) && !IsSpace(name[|name| - 1])
    ensures DownloadFile(Some(url), Some(name), freshId, pathOf, printable) == Accepted(freshId, url, name)
  {
    StripUnblanked(url);
    StripUnblanked(name);
  }
}

=== FILE: listing.dfy ===
/**
 The `/list` page's choice of entries (app.py:119-130): the directory's
 names in sorted order, keeping regular files whose name does not end in
 ".part". The HTML around each name is not modelled.
 */
module Listing {
  import opened Text
  import opened Ordering
  import opened Storage

  /** An entry the page links to. */
  predicate Shown(dir: Dir, x: string)
  {
    x in dir && dir[x].File? && !EndsWith(x, PartSuffix)
  }

  /** `names` is one answer of `os.listdir(DOWNLOAD_DIR)`: every entry once,
      in no particular order. */
  predicate ListsDir(names: seq<string>, dir: Dir)
  {
    && Distinct(names)
    && (forall x :: x in names ==> x in dir)
    && (forall x :: x in dir ==> x in names)
  }

  /** The `for x in items` loop's filter, keeping the order of `items`. */
  function Links(dir: Dir, items: seq<string>): (r: seq<string>)
    ensures |r| <= |items|
    ensures forall x :: x in r <==> x in items && Shown(dir, x)
  {
    if items == [] then []
    else if Shown(dir, items[0]) then [items[0]] + Links(dir, items[1..])
    else Links(dir, items[1..])
  }

  /** `list_files`: sort the listing, then filter it. */
  function ListFiles(dir: Dir, names: seq<string>): (r: seq<string>)
    requires ListsDir(names, dir)
    ensures StrictlySorted(r)
    ensures forall x :: x in r <==> Shown(dir, x)
  {
    var items := Sort(names);
    LinksSorted(dir, items);
    Links(dir, items)
  }

  /** Filtering a sorted sequence leaves it sorted. */
  lemma {:induction false} LinksSorted(dir: Dir, items: seq<string>)
    requires StrictlySorted(items)
    ensures StrictlySorted(Links(dir, items))
  {
    if items != [] {
      var rest := Links(dir, items[1..]);
      assert StrictlySorted(items[1..]) by {
        forall i, j | 0 <= i < j < |items[1..]|
          ensures Less(items[1..][i], items[1..][j])
        {
          assert items[1..][i] == items[i + 1] && items[1..][j] == items[j + 1];
        }
      }
      LinksSorted(dir, items[1..]);
      if Shown(dir, items[0]) {
        forall j | 0 <= j < |rest|
          ensures Less(items[0], rest[j])
        {
          assert rest[j] in items[1..];
          var k :| 0 <= k < |items[1..]| && items[1..][k] == rest[j];
          assert items[k + 1] == rest[j];
        }
        var r := [items[0]] + rest;
        forall i, j | 0 <= i < j < |r|
          ensures Less(r[i], r[j])
        {
          assert r[j] == rest[j - 1];
          if i > 0 {
            assert r[i] == rest[i - 1];
          }
        }
      }
    }
  }

  /** The page depends only on the directory, not on the order in which
      `os.listdir` happens to return its names. */
  lemma ListingOrderFree(dir: Dir, a: seq<string>, b: seq<string>)
    requires ListsDir(a, dir) && ListsDir(b, dir)
    ensures ListFiles(dir, a) == ListFiles(dir, b)
  {
    var ra := ListFiles(dir, a);
    var rb := ListFiles(dir, b);
    SortedUnique(ra, rb);
  }

  /** A partial file `.{name}.part` is never listed, whatever it holds. */
  lemma PartNeverShown(dir: Dir, name: string)
    ensures !Shown(dir, PartName(name))
  {
  }
}

=== FILE: ordering.dfy ===
/**
 The order Python's `sorted` puts strings in: lexicographic by code point,
 a proper prefix before its extensions. Insertion sort over that order.
 */
module Ordering {

  /** Strict code-point lexicographic order on strings. */
  predicate Less(a: string, b: string)
  {
    if |a| == 0 then |b| > 0
    else if |b| == 0 then false
    else if a[0] != b[0] then a[0] < b[0]
    else Less(a[1..], b[1..])
  }

  lemma {:induction false} LessIrreflexive(a: string)
    ensures !Less(a, a)
  {
    if |a| > 0 {
      LessIrreflexive(a[1..]);
    }
  }

  lemma {:induction false} LessTransitive(a: string, b: string, c: string)
    requires Less(a, b) && Less(b, c)
    ensures Less(a, c)
  {
    if |a| > 0 && |b| > 0 && |c| > 0 && a[0] == b[0] && b[0] == c[0] {
      LessTransitive(a[1..], b[1..], c[1..]);
    }
  }

  lemma {:induction false} LessTotal(a: string, b: string)
    ensures a == b || Less(a, b) || Less(b, a)
  {
    if |a| > 0 && |b| > 0 && a[0] == b[0] {
      LessTotal(a[1..], b[1..]);
      if a[1..] == b[1..] {
        assert a == [a[0]] + a[1..] && b == [b[0]] + b[1..];
      }
    }
  }

  lemma {:induction false} LessAsymmetric(a: string, b: string)
    requires Less(a, b)
    ensures !Less(b, a)
  {
    if Less(b, a) {
      LessTransitive(a, b, a);
      LessIrreflexive(a);
    }
  }

  predicate StrictlySorted(s: seq<string>)
  {
    forall i, j :: 0 <= i < j < |s| ==> Less(s[i], s[j])
  }

  predicate Distinct(s: seq<string>)
  {
    forall i, j :: 0 <= i < j < |s| ==> s[i] != s[j]
  }

  /** Places `x` into a strictly sorted sequence that does not yet hold it. */
  function Insert(x: string, s: seq<string>): (r: seq<string>)
    requires StrictlySorted(s) && x !in s
    ensures StrictlySorted(r)
    ensures |r| == |s| + 1
    ensures forall y :: y in r <==> y == x || y in s
  {
    if s == [] then [x]
    else if Less(x, s[0]) then
      assert forall j :: 0 <= j < |s| ==> Less(x, s[j]) by {
        forall j | 0 < j < |s| {
          LessTransitive(x, s[0], s[j]);
        }
      }
      [x] + s
    else
      LessTotal(x, s[0]);
      var rest := Insert(x, s[1..]);
      assert forall y :: y in rest ==> Less(s[0], y);
      [s[0]] + rest
  }

  /** Python's `sorted` on a list of distinct strings. */
  function Sort(s: seq<string>): (r: seq<string>)
    requires Distinct(s)
    ensures StrictlySorted(r)
    ensures |r| == |s|
    ensures forall y :: y in r <==> y in s
  {
    if s == [] then []
    else
      var rest := Sort(s[1..]);
      assert s[0] !in s[1..];
      Insert(s[0], rest)
  }

  lemma SameElementsBothEmpty(a: seq<string>, b: seq<string>)
    requires forall y :: y in a <==> y in b
    ensures a == [] <==> b == []
  {
    if a != [] {
      assert a[0] in b;
    }
    if b != [] {
      assert b[0] in a;
    }
  }

  /** A strictly sorted sequence is fixed by its elements: the sorted order
      of a set of names is unique. */
  lemma {:induction false} SortedUnique(a: seq<string>, b: seq<string>)
    requires StrictlySorted(a) && StrictlySorted(b)
    requires forall y :: y in a <==> y in b
    ensures a == b
  {
    SameElementsBothEmpty(a, b);
    if a != [] && b != [] {
      assert a[0] in a && b[0] in b;
      var j :| 0 <= j < |b| && b[j] == a[0];
      var i :| 0 <= i < |a| && a[i] == b[0];
      if i > 0 && j > 0 {
        LessAsymmetric(a[0], b[0]);
      }
      forall y
        ensures y in a[1..] <==> y in b[1..]
      {
        if y in a[1..] {
          var k :| 1 <= k < |a| && a[k] == y;
          LessIrreflexive(y);
          assert y in a && y in b;
          var m :| 0 <= m < |b| && b[m] == y;
          assert m != 0;
          assert b[1..][m - 1] == y;
        }
        if y in b[1..] {
          var k :| 1 <= k < |b| && b[k] == y;
          LessIrreflexive(y);
          assert y in b && y in a;
          var m :| 0 <= m < |a| && a[m] == y;
          assert m != 0;
          assert a[1..][m - 1] == y;
        }
      }
      SortedUnique(a[1..], b[1..]);
      assert a == [a[0]] + a[1..] && b == [b[0]] + b[1..];
    }
  }
}

=== FILE: sanitizer.dfy ===
/**
 The filename sanitiser `safe_filename_from_url` (app.py:30-37).

 The caller supplies the URL's path already percent-decoded (what
 `unquote(urlparse(url).path)` yields) and Python's `str.isprintable` as the
 character predicate `printable`. The only thing the model assumes about
 `printable` is that it holds on the ASCII graphic characters and space,
 as `str.isprintable` does.
 */
module Sanitizer {

  /** Name used when the URL gives nothing usable. */
  const Fallback: string := "download.bin"

  /** Longest name the sanitiser returns. */
  const MaxLength: nat := 180

  /** `str.isprintable` agrees with ASCII on ' ' .. '~'. */
  ghost predicate AsciiPrintable(printable: char -> bool)
  {
    forall c :: ' ' <= c <= '~' ==> printable(c)
  }

  /** Characters the sanitiser keeps: printable, and not one of the five it
      removes explicitly (newline, carriage return, tab and both slashes). */
  predicate Keep(c: char, printable: char -> bool)
  {
    printable(c) && c != '\n' && c != '\r' && c != '\t' && c != '/' && c != '\\'
  }

  predicate AllKept(s: string, printable: char -> bool)
  {
    forall i :: 0 <= i < |s| ==> Keep(s[i], printable)
  }

  /** `os.path.basename` on a POSIX path: the longest suffix of `p` without
      a '/'. */
  function Basename(p: string): (r: string)
    ensures |r| <= |p| && r == p[|p| - |r|..]
    ensures '/' !in r
    ensures |r| < |p| ==> p[|p| - |r| - 1] == '/'
  {
    if |p| == 0 then p
    else if p[|p| - 1] == '/' then []
    else
      var r := Basename(p[..|p| - 1]);
      BasenameStep(p[..|p| - 1], p[|p| - 1], r, p);
      r + [p[|p| - 1]]
  }

  /** Growing the path by one character other than `/` grows its last segment. */
  lemma BasenameStep(q: string, c: char, r: string, p: string)
    requires p == q + [c] && c != '/'
    requires |r| <= |q| && r == q[|q| - |r|..] && '/' !in r
    requires |r| < |q| ==> q[|q| - |r| - 1] == '/'
    ensures r + [c] == p[|p| - |r| - 1..] && '/' !in r + [c]
    ensures |r| + 1 < |p| ==> p[|p| - |r| - 2] == '/'
  {
    assert q[|q| - |r|..] + [c] == p[|p| - |r| - 1..];
  }

  /** `a` can be obtained from `b` by deleting characters. */
  predicate IsSubsequence(a: string, b: string)
    decreases |b|
  {
    a == [] || (|b| > 0 && (if a[0] == b[0] then IsSubsequence(a[1..], b[1..]) else IsSubsequence(a, b[1..])))
  }

  /** The generator expression of app.py:36: the kept characters of `s`, in order. */
  function Filter(s: string, printable: char -> bool): (r: string)
    ensures AllKept(r, printable)
    ensures |r| <= |s|
  {
    if s == [] then []
    else
      var rest := Filter(s[1..], printable);
      assert s == [s[0]] + s[1..];
      if Keep(s[0], printable) then [s[0]] + rest else rest
  }

  /** A name the sanitiser may return when its fallback is clean: non-empty,
      at most 180 characters, all of them kept. */
  predicate CleanName(s: string, printable: char -> bool)
  {
    0 < |s| <= MaxLength && AllKept(s, printable)
  }

  /** The sanitiser, with its `fallback` parameter (the application always
      passes the default, `Fallback`). The result is the fallback itself or a
      clean name. */
  function SafeFilename(path: string, printable: char -> bool, fallback: string): (r: string)
    ensures r == fallback || CleanName(r, printable)
  {
    var base := Basename(path);
    var name := if base == [] then fallback else base;
    var kept := Filter(name, printable);
    var cut := if |kept| <= MaxLength then kept else kept[..MaxLength];
    if cut == [] then fallback else cut
  }

  /** Printable ASCII without slashes: kept whatever `isprintable` does elsewhere. */
  predicate PlainAscii(s: string)
  {
    forall i :: 0 <= i < |s| ==> ' ' <= s[i] <= '~' && s[i] != '/' && s[i] != '\\'
  }

  lemma PlainAsciiKept(s: string, printable: char -> bool)
    requires AsciiPrintable(printable) && PlainAscii(s)
    ensures AllKept(s, printable)
  {
  }

  /** The default fallback is a clean name; the filter leaves it alone. */
  lemma FallbackClean(printable: char -> bool)
    requires AsciiPrintable(printable)
    ensures CleanName(Fallback, printable)
    ensures Filter(Fallback, printable) == Fallback
  {
    var f := Fallback;
    assert |f| == 12;
    assert PlainAscii(f);
    PlainAsciiKept(f, printable);
    FilterIdentity(f, printable);
  }

  /** The filter keeps the characters it should, in their order, and all of them:
      `Filter(s)` is a subsequence of `s` holding every kept character of `s` as
      often as `s` does and no other character. */
  lemma {:induction false} FilterContents(s: string, printable: char -> bool)
    ensures IsSubsequence(Filter(s, printable), s)
    ensures forall c :: multiset(Filter(s, printable))[c] == if Keep(c, printable) then multiset(s)[c] else 0
  {
    if s != [] {
      FilterContents(s[1..], printable);
      assert s == [s[0]] + s[1..];
      SubsequenceCons(s[0], Filter(s[1..], printable), s[1..]);
    }
  }

  lemma {:induction false} SubsequenceCons(x: char, a: string, b: string)
    requires IsSubsequence(a, b)
    ensures IsSubsequence(a, [x] + b)
    ensures IsSubsequence([x] + a, [x] + b)
    decreases |b|, 1
  {
    assert ([x] + a)[1..] == a && ([x] + b)[1..] == b;
    if a != [] && a[0] == x {
      SubsequenceDropHead(a, b);
    }
  }

  lemma {:induction false} SubsequenceDropHead(a: string, b: string)
    requires a != [] && IsSubsequence(a, b)
    ensures IsSubsequence(a[1..], b)
    decreases |b|, 0
  {
    if a[0] == b[0] {
      SubsequenceCons(b[0], a[1..], b[1..]);
      assert b == [b[0]] + b[1..];
    } else {
      SubsequenceDropHead(a, b[1..]);
      SubsequenceCons(b[0], a[1..], b[1..]);
      assert b == [b[0]] + b[1..];
    }
  }

  /** The base name of a path ending in "/" followed by a slash-free name is that name. */
  lemma {:induction false} BasenameOfLastSegment(dir: string, name: string)
    requires '/' !in name
    ensures Basename(dir + "/" + name) == name
  {
    var p := dir + "/" + name;
    if name != [] {
      assert p[..|p| - 1] == dir + "/" + name[..|name| - 1];
      BasenameOfLastSegment(dir, name[..|name| - 1]);
      assert name == name[..|name| - 1] + [name[|name| - 1]];
    }
  }

  /** A string of kept characters passes the filter unchanged, and only such a string does. */
  lemma {:induction false} FilterIdentity(s: string, printable: char -> bool)
    ensures Filter(s, printable) == s <==> AllKept(s, printable)
  {
    if s != [] {
      FilterIdentity(s[1..], printable);
      if !Keep(s[0], printable) {
        assert |Filter(s, printable)| <= |s[1..]|;
      }
    }
  }

  /** The filter yields nothing exactly when no character of `s` is kept. */
  lemma {:induction false} FilterEmpty(s: string, printable: char -> bool)
    ensures Filter(s, printable) == [] <==> forall i :: 0 <= i < |s| ==> !Keep(s[i], printable)
  {
    if s != [] {
      FilterEmpty(s[1..], printable);
      assert forall i :: 1 <= i < |s| ==> s[i] == s[1..][i - 1];
    }
  }

  /** With a clean fallback every result is a clean name: non-empty, at most
      180 characters, and free of slash, backslash, newline, carriage return,
      tab and unprintable characters. With the default fallback this needs
      only that `isprintable` holds on ASCII graphic characters. */
  lemma SafeFilenameClean(path: string, printable: char -> bool, fallback: string)
    requires CleanName(fallback, printable)
    ensures var r := SafeFilename(path, printable, fallback);
      && 0 < |r| <= MaxLength
      && forall i :: 0 <= i < |r| ==> printable(r[i]) && r[i] !in "\n\r\t/\\"
  {
  }

  lemma DefaultFallbackClean(path: string, printable: char -> bool)
    requires AsciiPrintable(printable)
    ensures CleanName(SafeFilename(path, printable, Fallback), printable)
  {
    FallbackClean(printable);
  }

  /** How the result is derived: the text after the last '/' is filtered; if
      nothing survives the result is the fallback, otherwise the first 180
      surviving characters. */
  lemma SafeFilenameDerivation(path: string, printable: char -> bool, fallback: string)
    requires CleanName(fallback, printable)
    ensures var kept := Filter(Basename(path), printable);
      && (kept == [] ==> SafeFilename(path, printable, fallback) == fallback)
      && (kept != [] ==> SafeFilename(path, printable, fallback) == kept[..if |kept| <= MaxLength then |kept| else MaxLength])
  {
    if Basename(path) == [] {
      FilterIdentity(fallback, printable);
    }
  }

  /** A last path segment that is already clean and short enough comes back unchanged. */
  lemma SafeFilenameKeepsCleanName(path: string, printable: char -> bool, fallback: string)
    requires CleanName(Basename(path), printable)
    ensures SafeFilename(path, printable, fallback) == Basename(path)
  {
    FilterIdentity(Basename(path), printable);
  }

  /** Sanitising a sanitised name again changes nothing. */
  lemma SafeFilenameIdempotent(path: string, printable: char -> bool, fallback: string)
    requires CleanName(fallback, printable)
    ensures var r := SafeFilename(path, printable, fallback);
      SafeFilename(r, printable, fallback) == r
  {
    var r := SafeFilename(path, printable, fallback);
    assert Basename(r) == r;
    SafeFilenameKeepsCleanName(r, printable, fallback);
  }

  /** The last segment of a URL path becomes the name: ".../files/report.pdf"
      gives "report.pdf". */
  lemma ReportExample(path: string, printable: char -> bool, fallback: string)
    requires path == "/files/report.pdf"
    requires AsciiPrintable(printable)
    ensures SafeFilename(path, printable, fallback) == "report.pdf"
  {
    var dir, name := "/files", "report.pdf";
    assert path == dir + "/" + name;
    assert PlainAscii(name);
    CleanSegmentExample(dir, name, printable, fallback);
  }

  lemma CleanSegmentExample(dir: string, name: string, printable: char -> bool, fallback: string)
    requires AsciiPrintable(printable)
    requires 0 < |name| <= MaxLength && PlainAscii(name)
    ensures SafeFilename(dir + "/" + name, printable, fallback) == name
  {
    PlainAsciiKept(name, printable);
    BasenameOfLastSegment(dir, name);
    SafeFilenameKeepsCleanName(dir + "/" + name, printable, fallback);
  }

  /** A path that ends in a slash, or whose last segment holds only removed
      characters, falls back. */
  lemma FallbackExamples(p1: string, p2: string, printable: char -> bool, fallback: string)
    requires p1 == "/files/" && p2 == "/\\\t"
    requires CleanName(fallback, printable)
    ensures SafeFilename(p1, printable, fallback) == fallback
    ensures SafeFilename(p2, printable, fallback) == fallback
  {
    assert p1 == "/files" + "/" + "";
    BasenameOfLastSegment("/files", "");
    SafeFilenameDerivation(p1, printable, fallback);
    assert p2 == "" + "/" + "\\\t";
    BasenameOfLastSegment("", "\\\t");
    FilterEmpty("\\\t", printable);
    SafeFilenameDerivation(p2, printable, fallback);
  }

  /** Nothing stops a ".." segment: the decoded path "/a/.." is sanitised to "..". */
  lemma DotDotSurvives(path: string, printable: char -> bool, fallback: string)
    requires path == "/a/.."
    requires AsciiPrintable(printable)
    ensures SafeFilename(path, printable, fallback) == ".."
  {
    assert path == "/a" + "/" + "..";
    assert PlainAscii("..");
    CleanSegmentExample("/a", "..", printable, fallback);
  }
}

=== FILE: server.dfy ===
/**
 The pieces put together: a POST /download that is accepted starts one job,
 whose worker runs to its end; the registry keeps the job's last record and
 the directory what the worker left (app.py:40, 82-92, 42-66). The worker's
 intermediate records are the trace `Worker.Download` returns.
 */
module Server {
  import opened Wrappers
  import opened Text
  import opened Jobs
  import opened Storage
  import Launcher
  import Worker
  import Status
  import Listing

  /** `DOWNLOAD_STATUS` and `DOWNLOAD_DIR` together. */
  datatype State = State(registry: Registry, dir: Dir)

  /** A job started under a fresh id and run to its end: the registry gains
      the job's last record and the directory becomes what the worker left;
      every other job keeps its record. */
  function RunJob(s: State, id: string, filename: string, fetch: Worker.Fetch, removeSucceeds: bool): (s': State)
    requires id !in s.registry
    ensures s'.registry.Keys == s.registry.Keys + {id}
    ensures forall other :: other in s.registry ==> s'.registry[other] == s.registry[other]
    ensures s'.registry[id].Terminal() && s'.registry[id].filename == filename
  {
    var run := Worker.Download(filename, fetch, s.dir, removeSucceeds);
    Worker.DownloadShape(filename, fetch, s.dir, removeSucceeds);
    State(s.registry[id := run.trace[|run.trace| - 1]], run.dir)
  }

  /** One submission: a rejected or crashed one changes nothing, an accepted
      one runs its job under the fresh id with the chosen file name. */
  function Submit(s: State, urlField: Option<string>, nameField: Option<string>, freshId: string,
                  pathOf: string -> Option<string>, printable: char -> bool, fetch: Worker.Fetch,
                  removeSucceeds: bool): (out: (Launcher.Reply, State))
    requires freshId !in s.registry
    ensures out.0.Rejected? <==> !Launcher.HasWebScheme(Strip(urlField.GetOr("")))
    ensures out.0.Crashed? <==>
      && Launcher.HasWebScheme(Strip(urlField.GetOr("")))
      && Strip(nameField.GetOr("")) == []
      && pathOf(Strip(urlField.GetOr(""))).None?
    ensures !out.0.Accepted? ==> out.1 == s && freshId !in out.1.registry
    ensures out.0.Accepted? ==>
      && out.0.jobId == freshId
      && freshId in out.1.registry
      && out.1.registry[freshId].filename == out.0.filename
  {
    var reply := Launcher.DownloadFile(urlField, nameField, freshId, pathOf, printable);
    if !reply.Accepted? then (reply, s)
    else (reply, RunJob(s, freshId, reply.filename, fetch, removeSucceeds))
  }

  /** A rejected submission leaves no job behind: its would-be id still
      answers 404. */
  lemma RejectedLeavesNoJob(s: State, urlField: Option<string>, nameField: Option<string>, freshId: string,
                            pathOf: string -> Option<string>, printable: char -> bool, fetch: Worker.Fetch,
                            removeSucceeds: bool)
    requires freshId !in s.registry
    requires !Launcher.HasWebScheme(Strip(urlField.GetOr("")))
    ensures Status.StatusOf(Submit(s, urlField, nameField, freshId, pathOf, printable, fetch, removeSucceeds).1.registry, freshId)
      == Status.NotFound(404, Status.NotFoundMessage)
  {
  }

  /** A web URL that `urlparse` refuses, submitted without a custom name,
      gets a 500 and leaves no job behind: nothing changes and its would-be
      id still answers 404. */
  lemma UnparsableLeavesNoJob(s: State, url: string, freshId: string,
                              pathOf: string -> Option<string>, printable: char -> bool, fetch: Worker.Fetch,
                              removeSucceeds: bool)
    requires freshId !in s.registry
    requires Launcher.HasWebScheme(Strip(url)) && pathOf(Strip(url)).None?
    ensures var out := Submit(s, Some(url), None, freshId, pathOf, printable, fetch, removeSucceeds);
      && out == (Launcher.Crashed(500), s)
      && Status.StatusOf(out.1.registry, freshId) == Status.NotFound(404, Status.NotFoundMessage)
  {
  }

  /** A job whose download goes through: its status shows the `finished`
      record with every byte counted, the file sits under its name and the
      partial file is gone. */
  lemma JobFinished(s: State, id: string, filename: string, fetch: Worker.Fetch, removeSucceeds: bool)
    requires id !in s.registry
    requires Worker.FailureOf(fetch).None?
    ensures var s' := RunJob(s, id, filename, fetch, removeSucceeds);
      && Status.StatusOf(s'.registry, id)
         == Status.Stored(Finished(filename, Worker.TotalOf(fetch.length), Worker.Sum(fetch.chunks)))
      && filename in s'.dir
      && PartName(filename) !in s'.dir
  {
    Worker.DownloadOutcome(filename, fetch, s.dir, removeSucceeds);
    Worker.DownloadSuccess(filename, fetch, s.dir, removeSucceeds);
  }

  /** After a finished download the list page shows the new file exactly when
      its name does not end in ".part": a custom name such as "x.part" is
      saved but never listed. */
  lemma FinishedFileListed(s: State, id: string, filename: string, fetch: Worker.Fetch, removeSucceeds: bool,
                           names: seq<string>)
    requires id !in s.registry
    requires Worker.FailureOf(fetch).None?
    requires Listing.ListsDir(names, RunJob(s, id, filename, fetch, removeSucceeds).dir)
    ensures filename in Listing.ListFiles(RunJob(s, id, filename, fetch, removeSucceeds).dir, names)
      <==> !EndsWith(filename, PartSuffix)
  {
    Worker.DownloadSuccess(filename, fetch, s.dir, removeSucceeds);
  }
}

=== FILE: status.dfy ===
/**
 The `/status/<job_id>` view (app.py:99-117): a 404 for an unknown id, the
 stored record for a job that is not downloading, and for a downloading job
 the record together with a progress figure.
 */
module Status {
  import opened Wrappers
  import opened Jobs
  import opened Storage
  import opened Worker

  const NotFoundMessage: string := "İş bulunamadı."

  /** The `progress` field: `"?"` when the length is unknown, otherwise the
      percentage `downloaded / total * 100` (before its one-decimal format). */
  datatype Percent = Unknown | Ratio(value: real)

  /** What the route answers. */
  datatype View =
    | NotFound(code: int, message: string)
    | Live(filename: string, downloaded: nat, total: int, progress: Percent)
    | Stored(record: Record)

  /** The progress figure of a downloading record. */
  function PercentOf(downloaded: nat, total: int): (p: Percent)
    ensures p.Unknown? <==> total == 0
    ensures p.Ratio? ==> p.value * total as real == downloaded as real * 100.0
  {
    if total == 0 then Unknown else Ratio(downloaded as real / total as real * 100.0)
  }

  /** `status(job_id)` over the registry. */
  function StatusOf(registry: Registry, id: string): (v: View)
    ensures v.NotFound? <==> id !in registry
    ensures v.NotFound? ==> v.code == 404 && v.message == NotFoundMessage
    ensures id in registry && registry[id].Downloading? ==>
      && v.Live?
      && v.filename == registry[id].filename
      && v.downloaded == registry[id].downloaded
      && v.total == registry[id].total
      && v.progress == PercentOf(registry[id].downloaded, registry[id].total)
    ensures id in registry && !registry[id].Downloading? ==> v == Stored(registry[id])
  {
    if id !in registry then NotFound(404, NotFoundMessage)
    else
      var r := registry[id];
      if r.Downloading? then Live(r.filename, r.downloaded, r.total, PercentOf(r.downloaded, r.total))
      else Stored(r)
  }

  /** A count that has not passed a positive declared length reads as a
      percentage between 0 and 100. */
  lemma PercentInRange(downloaded: nat, total: int)
    requires 0 < total && downloaded <= total
    ensures PercentOf(downloaded, total).Ratio?
    ensures 0.0 <= PercentOf(downloaded, total).value <= 100.0
  {
  }

  /** A server that sends no Content-Length gives a job whose status shows
      `"?"` for as long as it is downloading. */
  lemma UnknownLengthShowsQuestionMark(registry: Registry, id: string, name: string, chunks: seq<nat>,
                                       fault: StreamFault, renameFault: Option<string>, dir: Dir,
                                       removeSucceeds: bool, i: nat)
    requires var t := Download(name, Response(Absent, chunks, fault, renameFault), dir, removeSucceeds).trace;
      i < |t| && t[i].Downloading? && id in registry && registry[id] == t[i]
    ensures StatusOf(registry, id).Live? && StatusOf(registry, id).progress == Unknown
  {
    DownloadTotals(name, Response(Absent, chunks, fault, renameFault), dir, removeSucceeds);
  }
}

=== FILE: storage.dfy ===
/**
 The download directory as the worker and the listing see it: a map from
 entry name to entry, with the hidden partial name `.{name}.part` used while
 a download is in flight (app.py:43-44).
 */
module Storage {
  import opened Text

  datatype Entry = File(size: nat) | Folder

  /** `DOWNLOAD_DIR`, flat: every name the worker joins to it is one key. */
  type Dir = map<string, Entry>

  const PartSuffix: string := ".part"

  /** The temporary name `.{name}.part`: hidden, ends in ".part", holds the
      final name right after the dot, and is never the final name itself. */
  function PartName(name: string): (t: string)
    ensures t != name
    ensures |t| > 0 && t[0] == '.' && EndsWith(t, PartSuffix)
    ensures |t| == |name| + 6 && t[1..|name| + 1] == name
  {
    var t := "." + name + PartSuffix;
    assert |t| == |name| + 6;
    assert t[|t| - 5..] == PartSuffix;
    t
  }

  /** Different final names get different partial names, so two downloads
      under different names never share a partial file. */
  lemma PartNameInjective(a: string, b: string)
    requires PartName(a) == PartName(b)
    ensures a == b
  {
  }

  /** The failure path's cleanup: remove the partial file if it exists. A
      failed removal (or a folder in its place, which `os.remove` refuses) is
      swallowed and leaves the entry where it is. */
  function RemovePartial(dir: Dir, tmp: string, removeSucceeds: bool): (d: Dir)
    ensures forall x :: x != tmp ==> (x in d <==> x in dir) && (x in d ==> d[x] == dir[x])
    ensures tmp in d <==> tmp in dir && !(removeSucceeds && dir[tmp].File?)
    ensures tmp in d ==> d[tmp] == dir[tmp]
  {
    if tmp in dir && dir[tmp].File? && removeSucceeds then dir - {tmp} else dir
  }

  /** `os.replace(tmp, final)`: the final name takes the partial file's
      content and the partial name disappears, in one step. */
  function Publish(dir: Dir, tmp: string, final: string): (d: Dir)
    requires tmp in dir && tmp != final
    ensures final in d && d[final] == dir[tmp] && tmp !in d
    ensures forall x :: x != tmp && x != final ==> (x in d <==> x in dir) && (x in d ==> d[x] == dir[x])
  {
    (dir - {tmp})[final := dir[tmp]]
  }
}

=== FILE: text.dfy ===
/**
 Character-level string helpers with the meaning Python gives them:
 `str.isspace`, `str.strip`, `str.lower` (on ASCII), `str.startswith`
 and `str.endswith`.
 */
module Text {

  /** Python's `str.isspace` on one character: the Unicode White_Space
      characters plus the four ASCII information separators. */
  predicate IsSpace(c: char)
  {
    || c == ' '
    || ('\t' <= c <= '\r')
    || ('\U{1C}' <= c <= '\U{1F}')
    || c == '\U{85}'
    || c == '\U{A0}'
    || c == '\U{1680}'
    || ('\U{2000}' <= c <= '\U{200A}')
    || c == '\U{2028}'
    || c == '\U{2029}'
    || c == '\U{202F}'
    || c == '\U{205F}'
    || c == '\U{3000}'
  }

  /** Drops leading whitespace: the result is the suffix of `s` that starts
      at its first non-space character. */
  function TrimStart(s: string): (r: string)
    ensures |r| <= |s| && r == s[|s| - |r|..]
    ensures forall k :: 0 <= k < |s| - |r| ==> IsSpace(s[k])
    ensures r == [] || !IsSpace(r[0])
  {
    if |s| > 0 && IsSpace(s[0]) then TrimStart(s[1..]) else s
  }

  /** Drops trailing whitespace: the result is the prefix of `s` that ends
      at its last non-space character. */
  function TrimEnd(s: string): (r: string)
    ensures |r| <= |s| && r == s[..|r|]
    ensures forall k :: |r| <= k < |s| ==> IsSpace(s[k])
    ensures r == [] || !IsSpace(r[|r| - 1])
  {
    if |s| > 0 && IsSpace(s[|s| - 1]) then TrimEnd(s[..|s| - 1]) else s
  }

  /** Number of whitespace characters in front of `s`. */
  function Leading(s: string): (n: nat)
    ensures n <= |s|
  {
    |s| - |TrimStart(s)|
  }

  /** Python's `str.strip()`: the infix of `s` between its first and last
      non-space characters, empty when `s` is all whitespace. */
  function Strip(s: string): (r: string)
    ensures Leading(s) + |r| <= |s| && r == s[Leading(s)..Leading(s) + |r|]
    ensures forall k :: 0 <= k < Leading(s) ==> IsSpace(s[k])
    ensures forall k :: Leading(s) + |r| <= k < |s| ==> IsSpace(s[k])
    ensures r == [] || (!IsSpace(r[0]) && !IsSpace(r[|r| - 1]))
    ensures r == [] <==> forall k :: 0 <= k < |s| ==> IsSpace(s[k])
  {
    var t := TrimStart(s);
    var r := TrimEnd(t);
    TrimmedBothEnds(s, t, r);
    r
  }

  lemma TrimmedBothEnds(s: string, t: string, r: string)
    requires |t| <= |s| && t == s[|s| - |t|..]
    requires |r| <= |t| && r == t[..|r|]
    requires forall k :: |r| <= k < |t| ==> IsSpace(t[k])
    requires t == [] || !IsSpace(t[0])
    ensures var n := |s| - |t|;
      && r == s[n..n + |r|]
      && (forall k :: n + |r| <= k < |s| ==> IsSpace(s[k]))
      && (r == [] || !IsSpace(r[0]))
  {
    var n := |s| - |t|;
    forall k | n + |r| <= k < |s|
      ensures IsSpace(s[k])
    {
      assert s[k] == t[k - n];
    }
    if r != [] {
      assert r[0] == t[0];
    }
  }

  /** A string with no blank at either end is its own strip. */
  lemma StripUnblanked(s: string)
    requires s == [] || (!IsSpace(s[0]) && !IsSpace(s[|s| - 1]))
    ensures Strip(s) == s
  {
  }

  /** ASCII case folding, as `str.lower` does on ASCII letters. */
  function LowerChar(c: char): (l: char)
  {
    if 'A' <= c <= 'Z' then (c as int + 32) as char else c
  }

  /** `str.lower` on every character of `s` (ASCII letters only). */
  function Lower(s: string): (r: string)
    ensures |r| == |s|
    ensures forall i :: 0 <= i < |s| ==> r[i] == LowerChar(s[i])
  {
    seq(|s|, i requires 0 <= i < |s| => LowerChar(s[i]))
  }

  predicate StartsWith(s: string, prefix: string)
  {
    |prefix| <= |s| && s[..|prefix|] == prefix
  }

  /** The case-insensitive prefix test `s.lower().startswith(prefix)`, character by character. */
  lemma LowerStartsWith(s: string, prefix: string)
    ensures StartsWith(Lower(s), prefix) <==>
      |prefix| <= |s| && forall i :: 0 <= i < |prefix| ==> LowerChar(s[i]) == prefix[i]
  {
    if |prefix| <= |s| && forall i :: 0 <= i < |prefix| ==> LowerChar(s[i]) == prefix[i] {
      assert Lower(s)[..|prefix|] == prefix;
    }
  }

  predicate EndsWith(s: string, suffix: string)
  {
    |suffix| <= |s| && s[|s| - |suffix|..] == suffix
  }
}

=== FILE: worker.dfy ===
/**
 `download_worker` (app.py:42-66) as a pure function from what the network
 and the file system do to the sequence of records the job's registry entry
 takes and the directory left behind.

 `requests.get`, `raise_for_status`, `int(Content-Length)`, `open`, the
 chunk iterator, `os.replace` and `os.remove` are not run: the `Fetch`
 value says which of them raises and with which message, and what chunks
 the body delivers.
 */
module Worker {
  import opened Wrappers
  import opened Jobs
  import opened Storage

  /** The `Content-Length` header as `int(r.headers.get("Content-Length", 0))` sees it. */
  datatype ContentLength =
    | Absent
    | Declared(value: int)
    | Unparsable(error: string)    // `int(...)` raises ValueError

  /** Where writing the body to the partial file breaks, if it does. */
  datatype StreamFault =
    | NoFault
    | OpenFailed(error: string)                 // `open(tmp_path, "wb")` raises
    | BrokenAfter(count: nat, error: string)    // reading or writing raises once `count` chunks are stored

  /** What fetching the URL does. */
  datatype Fetch =
    | RequestFailed(error: string)   // `requests.get` raises: DNS, connect, TLS, timeout
    | BadStatus(error: string)       // `raise_for_status` raises
    | Response(length: ContentLength, chunks: seq<nat>, fault: StreamFault, renameFault: Option<string>)
      // `chunks` are the lengths `iter_content` yields; `renameFault` is the error of `os.replace`

  /** Every value the job's registry entry takes, in order, and the final directory. */
  datatype Run = Run(trace: seq<Record>, dir: Dir)

  function Sum(chunks: seq<nat>): nat
  {
    if chunks == [] then 0 else chunks[0] + Sum(chunks[1..])
  }

  /** The chunks `if chunk:` lets through: every non-empty chunk, as often as
      it occurs, and no empty one. */
  function NonEmpty(chunks: seq<nat>): (r: seq<nat>)
    ensures forall i :: 0 <= i < |r| ==> r[i] > 0
    ensures forall c :: multiset(r)[c] == if c == 0 then 0 else multiset(chunks)[c]
  {
    if chunks == [] then []
    else
      assert chunks == [chunks[0]] + chunks[1..];
      if chunks[0] == 0 then NonEmpty(chunks[1..])
      else [chunks[0]] + NonEmpty(chunks[1..])
  }

  /** The records the chunk loop writes: one per non-empty chunk, each a
      downloading record whose counter has grown by that chunk. */
  function Progress(name: string, total: int, chunks: seq<nat>, done: nat): (r: seq<Record>)
    ensures forall i :: 0 <= i < |r| ==> r[i].Downloading? && r[i].filename == name && r[i].total == total
    ensures forall i :: 0 <= i < |r| ==> done < r[i].downloaded
  {
    if chunks == [] then []
    else if chunks[0] == 0 then Progress(name, total, chunks[1..], done)
    else [Downloading(name, total, done + chunks[0])] + Progress(name, total, chunks[1..], done + chunks[0])
  }

  /** The `except` branch: the record is replaced by an error record and the
      partial file removed if possible. */
  function Abort(trace: seq<Record>, name: string, error: string, dir: Dir, removeSucceeds: bool): (run: Run)
    ensures |run.trace| == |trace| + 1 && run.trace[..|trace|] == trace
    ensures run.trace[|trace|] == Failed(name, error) && run.trace[|trace|].Status() == "error"
    ensures forall x :: x != PartName(name) ==> (x in run.dir <==> x in dir) && (x in run.dir ==> run.dir[x] == dir[x])
    ensures PartName(name) in run.dir <==> PartName(name) in dir && !(removeSucceeds && dir[PartName(name)].File?)
    ensures PartName(name) in run.dir ==> run.dir[PartName(name)] == dir[PartName(name)]
  {
    Run(trace + [Failed(name, error)], RemovePartial(dir, PartName(name), removeSucceeds))
  }

  /** The chunks that reach the partial file before the stream breaks: all
      of them when it does not break within the body, otherwise exactly the
      first `count`. */
  function Received(chunks: seq<nat>, fault: StreamFault): (r: seq<nat>)
    ensures |r| <= |chunks| && r == chunks[..|r|]
    ensures !fault.BrokenAfter? ==> r == chunks
    ensures fault.BrokenAfter? ==> |r| == if fault.count < |chunks| then fault.count else |chunks|
  {
    if fault.BrokenAfter? && fault.count < |chunks| then chunks[..fault.count] else chunks
  }

  /** One run of `download_worker(job_id, url, name)`. */
  function Download(name: string, fetch: Fetch, dir: Dir, removeSucceeds: bool): (run: Run)
    ensures |run.trace| >= 2 && run.trace[0] == Starting(name)
  {
    var started := [Starting(name)];
    match fetch
    case RequestFailed(e) => Abort(started, name, e, dir, removeSucceeds)
    case BadStatus(e) => Abort(started, name, e, dir, removeSucceeds)
    case Response(length, chunks, fault, renameFault) =>
      if length.Unparsable? then Abort(started, name, length.error, dir, removeSucceeds)
      else Transfer(name, TotalOf(length), chunks, fault, renameFault, dir, removeSucceeds)
  }

  /** The part of the worker after the `downloading` record is first written:
      stream into the partial file, then rename it onto the final name. */
  function Transfer(name: string, total: int, chunks: seq<nat>, fault: StreamFault, renameFault: Option<string>,
                    dir: Dir, removeSucceeds: bool): (run: Run)
    ensures |run.trace| >= 3
    ensures run.trace[..2] == [Starting(name), Downloading(name, total, 0)]
  {
    var begun := [Starting(name), Downloading(name, total, 0)];
    if fault.OpenFailed? then Abort(begun, name, fault.error, dir, removeSucceeds)
    else
      var received := Received(chunks, fault);
      var streamed := begun + Progress(name, total, received, 0);
      var written := dir[PartName(name) := File(Sum(received))];
      if fault.BrokenAfter? then Abort(streamed, name, fault.error, written, removeSucceeds)
      else if renameFault.Some? then Abort(streamed, name, renameFault.value, written, removeSucceeds)
      else Run(streamed + [MarkFinished(streamed[|streamed| - 1])], Publish(written, PartName(name), name))
  }

  /** `total` as the downloading record holds it: 0 when the header is absent. */
  function TotalOf(length: ContentLength): int
  {
    if length.Declared? then length.value else 0
  }

  /** The message of the first stage that raises, if any stage does: the
      request, the status check, the header conversion, the open, the
      stream, and last the rename. */
  function FailureOf(fetch: Fetch): Option<string>
  {
    match fetch
    case RequestFailed(e) => Some(e)
    case BadStatus(e) => Some(e)
    case Response(length, chunks, fault, renameFault) =>
      if length.Unparsable? then Some(length.error)
      else if !fault.NoFault? then Some(fault.error)
      else renameFault
  }

  // ---------------------------------------------------------------------------
  // The chunk loop

  lemma {:induction false} SumNonEmpty(chunks: seq<nat>)
    ensures Sum(NonEmpty(chunks)) == Sum(chunks)
  {
    if chunks != [] {
      SumNonEmpty(chunks[1..]);
      if chunks[0] != 0 {
        assert ([chunks[0]] + NonEmpty(chunks[1..]))[1..] == NonEmpty(chunks[1..]);
      }
    }
  }

  /** Empty chunks write no record: the loop writes one record per non-empty
      chunk. */
  lemma {:induction false} ProgressLength(name: string, total: int, chunks: seq<nat>, done: nat)
    ensures |Progress(name, total, chunks, done)| == |NonEmpty(chunks)|
  {
    if chunks != [] {
      ProgressLength(name, total, chunks[1..], if chunks[0] == 0 then done else done + chunks[0]);
    }
  }

  lemma ProgressCounts(name: string, total: int, chunks: seq<nat>, done: nat)
    ensures |Progress(name, total, chunks, done)| == |NonEmpty(chunks)|
    ensures forall i :: 0 <= i < |Progress(name, total, chunks, done)| ==>
      Progress(name, total, chunks, done)[i] == Downloading(name, total, done + Sum(NonEmpty(chunks)[..i + 1]))
  {
    ProgressLength(name, total, chunks, done);
    forall i | 0 <= i < |Progress(name, total, chunks, done)|
      ensures Progress(name, total, chunks, done)[i] == Downloading(name, total, done + Sum(NonEmpty(chunks)[..i + 1]))
    {
      ProgressAt(name, total, chunks, done, i);
    }
  }

  /** One record of the chunk loop: the `i`-th record counts the first `i + 1`
      non-empty chunks. */
  lemma {:induction false} ProgressAt(name: string, total: int, chunks: seq<nat>, done: nat, i: nat)
    requires i < |NonEmpty(chunks)| && i < |Progress(name, total, chunks, done)|
    ensures Progress(name, total, chunks, done)[i] == Downloading(name, total, done + Sum(NonEmpty(chunks)[..i + 1]))
  {
    var c := chunks[0];
    if c == 0 {
      ProgressAt(name, total, chunks[1..], done, i);
    } else {
      var rest := NonEmpty(chunks[1..]);
      assert NonEmpty(chunks) == [c] + rest;
      SumPrefixCons(c, rest, i);
      if i == 0 {
        assert rest[..0] == [];
      } else {
        ProgressAt(name, total, chunks[1..], done + c, i - 1);
      }
    }
  }

  lemma SumPrefixCons(c: nat, rest: seq<nat>, i: nat)
    requires i <= |rest|
    ensures Sum(([c] + rest)[..i + 1]) == c + Sum(rest[..i])
  {
    assert ([c] + rest)[..i + 1] == [c] + rest[..i];
  }

  /** The last record of the chunk loop counts every byte received; no record
      at all means no byte was received. */
  lemma {:induction false} ProgressLast(name: string, total: int, chunks: seq<nat>, done: nat)
    ensures Progress(name, total, chunks, done) != [] ==>
      Progress(name, total, chunks, done)[|Progress(name, total, chunks, done)| - 1].downloaded == done + Sum(chunks)
    ensures Progress(name, total, chunks, done) == [] ==> Sum(chunks) == 0
  {
    if chunks != [] {
      var c := chunks[0];
      var rest := Progress(name, total, chunks[1..], done + c);
      ProgressLast(name, total, chunks[1..], done + c);
      if c != 0 {
        assert Progress(name, total, chunks, done) == [Downloading(name, total, done + c)] + rest;
      }
    }
  }

  /** The counter only grows along the records of the chunk loop. */
  lemma ProgressIncreasing(name: string, total: int, chunks: seq<nat>, done: nat)
    ensures forall i, j :: 0 <= i < j < |Progress(name, total, chunks, done)| ==>
      Progress(name, total, chunks, done)[i].downloaded < Progress(name, total, chunks, done)[j].downloaded
  {
    forall i, j | 0 <= i < j < |Progress(name, total, chunks, done)|
      ensures Progress(name, total, chunks, done)[i].downloaded < Progress(name, total, chunks, done)[j].downloaded
    {
      ProgressOrdered(name, total, chunks, done, i, j);
    }
  }

  lemma {:induction false} ProgressOrdered(name: string, total: int, chunks: seq<nat>, done: nat, i: nat, j: nat)
    requires i < j < |Progress(name, total, chunks, done)|
    ensures Progress(name, total, chunks, done)[i].downloaded < Progress(name, total, chunks, done)[j].downloaded
  {
    var c := chunks[0];
    if c == 0 {
      assert Progress(name, total, chunks, done) == Progress(name, total, chunks[1..], done);
      ProgressOrdered(name, total, chunks[1..], done, i, j);
    } else {
      var rest := Progress(name, total, chunks[1..], done + c);
      var r := Progress(name, total, chunks, done);
      assert r == [Downloading(name, total, done + c)] + rest;
      assert r[j] == rest[j - 1];
      if i == 0 {
        assert rest[j - 1].downloaded > done + c;
      } else {
        assert r[i] == rest[i - 1];
        ProgressOrdered(name, total, chunks[1..], done + c, i - 1, j - 1);
      }
    }
  }

  // ---------------------------------------------------------------------------
  // The job's trace

  /** The lifecycle: the first record is `starting`, every record between the
      first and the last is `downloading`, the last is terminal, and every
      record carries the job's file name. */
  lemma DownloadShape(name: string, fetch: Fetch, dir: Dir, removeSucceeds: bool)
    ensures Lifecycle(Download(name, fetch, dir, removeSucceeds).trace, name)
  {
    if fetch.Response? && !fetch.length.Unparsable? {
      TransferShape(name, TotalOf(fetch.length), fetch.chunks, fetch.fault, fetch.renameFault, dir, removeSucceeds);
    }
  }

  lemma TransferShape(name: string, total: int, chunks: seq<nat>, fault: StreamFault, renameFault: Option<string>,
                      dir: Dir, removeSucceeds: bool)
    ensures Lifecycle(Transfer(name, total, chunks, fault, renameFault, dir, removeSucceeds).trace, name)
  {
    var t := Transfer(name, total, chunks, fault, renameFault, dir, removeSucceeds).trace;
    if !fault.OpenFailed? {
      var p := Progress(name, total, Received(chunks, fault), 0);
      TransferTrace(name, total, chunks, fault, renameFault, dir, removeSucceeds);
      assert forall k :: 2 <= k < |t| - 1 ==> t[k] == p[k - 2];
    }
  }

  /** How the job ends: `finished` with the counter at the sum of all chunk
      lengths when no stage raises, otherwise an `error` record holding only the
      file name and the message of the first stage that raised. */
  lemma DownloadOutcome(name: string, fetch: Fetch, dir: Dir, removeSucceeds: bool)
    ensures var t := Download(name, fetch, dir, removeSucceeds).trace;
      match FailureOf(fetch)
      case None => t[|t| - 1] == Finished(name, TotalOf(fetch.length), Sum(fetch.chunks))
      case Some(e) => t[|t| - 1] == Failed(name, e)
  {
    if FailureOf(fetch).None? {
      TransferFinishes(name, TotalOf(fetch.length), fetch.chunks, dir, removeSucceeds);
    }
  }

  lemma TransferFinishes(name: string, total: int, chunks: seq<nat>, dir: Dir, removeSucceeds: bool)
    ensures var t := Transfer(name, total, chunks, NoFault, None, dir, removeSucceeds).trace;
      t[|t| - 1] == Finished(name, total, Sum(chunks))
  {
    ProgressLast(name, total, chunks, 0);
  }

  /** A request that fails, a bad status or an unreadable length ends the job
      straight after `starting`: no `downloading` record, and no entry is added
      to the directory (a stale partial file of the same name is removed). */
  lemma DownloadEarlyFailure(name: string, fetch: Fetch, dir: Dir, removeSucceeds: bool)
    requires fetch.RequestFailed? || fetch.BadStatus? || (fetch.Response? && fetch.length.Unparsable?)
    ensures var run := Download(name, fetch, dir, removeSucceeds);
      && run.trace == [Starting(name), Failed(name, FailureOf(fetch).value)]
      && run.dir == RemovePartial(dir, PartName(name), removeSucceeds)
      && run.dir.Keys <= dir.Keys
  {
  }

  /** With a response and a readable length, the second record is
      `downloading` with nothing downloaded and `total` the declared length, or
      0 when none is declared. */
  lemma DownloadBegins(name: string, fetch: Fetch, dir: Dir, removeSucceeds: bool)
    requires fetch.Response? && !fetch.length.Unparsable?
    ensures Download(name, fetch, dir, removeSucceeds).trace[1] == Downloading(name, TotalOf(fetch.length), 0)
  {
  }

  /** The records of a transfer: `starting`, `downloading` at 0, one
      `downloading` record per non-empty chunk received, and the final record. */
  lemma TransferTrace(name: string, total: int, chunks: seq<nat>, fault: StreamFault, renameFault: Option<string>,
                      dir: Dir, removeSucceeds: bool)
    requires !fault.OpenFailed?
    ensures var t := Transfer(name, total, chunks, fault, renameFault, dir, removeSucceeds).trace;
      t == [Starting(name), Downloading(name, total, 0)] + Progress(name, total, Received(chunks, fault), 0) + [t[|t| - 1]]
  {
  }

  /** While downloading, the counter never goes down and `total` never
      changes, up to and including the `finished` record. */
  lemma DownloadProgressMonotone(name: string, fetch: Fetch, dir: Dir, removeSucceeds: bool)
    ensures ProgressMonotone(Download(name, fetch, dir, removeSucceeds).trace)
  {
    if fetch.Response? && !fetch.length.Unparsable? {
      var total := TotalOf(fetch.length);
      TransferMonotone(name, total, fetch.chunks, fetch.fault, fetch.renameFault, dir, removeSucceeds);
    }
  }

  /** Every record that carries progress reports the length the response
      declared (0 when it declared none). */
  lemma DownloadTotals(name: string, fetch: Fetch, dir: Dir, removeSucceeds: bool)
    requires fetch.Response? && !fetch.length.Unparsable?
    ensures var t := Download(name, fetch, dir, removeSucceeds).trace;
      forall i :: 0 <= i < |t| && HasProgress(t[i]) ==> t[i].total == TotalOf(fetch.length)
  {
    var t := Download(name, fetch, dir, removeSucceeds).trace;
    DownloadBegins(name, fetch, dir, removeSucceeds);
    DownloadProgressMonotone(name, fetch, dir, removeSucceeds);
    forall i | 0 <= i < |t| && HasProgress(t[i])
      ensures t[i].total == TotalOf(fetch.length)
    {
      if i > 1 {
        assert t[1].total == t[i].total;
      }
    }
  }

  lemma TransferMonotone(name: string, total: int, chunks: seq<nat>, fault: StreamFault, renameFault: Option<string>,
                         dir: Dir, removeSucceeds: bool)
    ensures ProgressMonotone(Transfer(name, total, chunks, fault, renameFault, dir, removeSucceeds).trace)
  {
    var t := Transfer(name, total, chunks, fault, renameFault, dir, removeSucceeds).trace;
    if !fault.OpenFailed? {
      var p := Progress(name, total, Received(chunks, fault), 0);
      TransferTrace(name, total, chunks, fault, renameFault, dir, removeSucceeds);
      ProgressIncreasing(name, total, Received(chunks, fault), 0);
      MonotoneOfParts(name, total, p, t[|t| - 1]);
    }
  }

  /** `starting`, `downloading` at 0, increasing counters, then a failure or a
      `finished` record that repeats the last counter: a monotone trace. */
  lemma MonotoneOfParts(name: string, total: int, p: seq<Record>, last: Record)
    requires forall i :: 0 <= i < |p| ==> p[i].Downloading? && p[i].total == total
    requires forall i, j :: 0 <= i < j < |p| ==> p[i].downloaded < p[j].downloaded
    requires last.Failed? || last.Finished?
    requires last.Finished? ==> last.total == total && last.downloaded == (if p == [] then 0 else p[|p| - 1].downloaded)
    ensures ProgressMonotone([Starting(name), Downloading(name, total, 0)] + p + [last])
  {
    var t := [Starting(name), Downloading(name, total, 0)] + p + [last];
    forall i, j | 0 < i < j < |t| && !t[j].Failed?
      ensures HasProgress(t[i]) && HasProgress(t[j]) && t[i].total == t[j].total && t[i].downloaded <= t[j].downloaded
    {
      if i >= 2 {
        assert t[i] == p[i - 2];
      }
      if 2 <= j < |t| - 1 {
        assert t[j] == p[j - 2];
      }
      if j == |t| - 1 && p != [] {
        assert t[|t| - 2] == p[|p| - 1];
        if i < |t| - 2 && i >= 2 {
          assert p[i - 2].downloaded < p[|p| - 1].downloaded;
        }
      }
    }
  }

  /** Success publishes the file: the partial name is gone, the final name
      holds every byte received, no other entry changes, and the last two
      records differ only in their status. */
  lemma DownloadSuccess(name: string, fetch: Fetch, dir: Dir, removeSucceeds: bool)
    requires FailureOf(fetch).None?
    ensures var run := Download(name, fetch, dir, removeSucceeds);
      && var t := run.trace;
      && |t| >= 3
      && t[|t| - 2] == Downloading(name, TotalOf(fetch.length), Sum(fetch.chunks))
      && t[|t| - 1] == MarkFinished(t[|t| - 2])
      && name in run.dir && run.dir[name] == File(Sum(fetch.chunks))
      && PartName(name) !in run.dir
      && forall x :: x != name && x != PartName(name) ==> (x in run.dir <==> x in dir) && (x in dir ==> run.dir[x] == dir[x])
  {
    DownloadOutcome(name, fetch, dir, removeSucceeds);
    DownloadShape(name, fetch, dir, removeSucceeds);
  }

  /** Failure leaves no trace in the directory except, possibly, the partial
      file: every other entry, the final name's included, is as before, and the
      partial file is gone unless removing it failed or a folder sits in its place. */
  lemma DownloadFailureCleanup(name: string, fetch: Fetch, dir: Dir, removeSucceeds: bool)
    requires FailureOf(fetch).Some?
    ensures var run := Download(name, fetch, dir, removeSucceeds);
      && (forall x :: x != PartName(name) ==> (x in run.dir <==> x in dir) && (x in dir ==> run.dir[x] == dir[x]))
      && (removeSucceeds && !(PartName(name) in dir && dir[PartName(name)].Folder?) ==> PartName(name) !in run.dir)
  {
  }

  /** The worker does not compare the count with the declared length: a body
      shorter than its Content-Length still ends `finished`. */
  lemma ShortBodyFinishes(name: string, dir: Dir, removeSucceeds: bool)
    ensures var t := Download(name, Response(Declared(10), [4], NoFault, None), dir, removeSucceeds).trace;
      t == [Starting(name), Downloading(name, 10, 0), Downloading(name, 10, 4), Finished(name, 10, 4)]
  {
    assert Progress(name, 10, [4], 0) == [Downloading(name, 10, 4)];
  }

  /** A 404 ends in an error record right after `starting`; with no stale
      partial file the directory is untouched. */
  lemma NotFoundScenario(name: string, message: string, dir: Dir, removeSucceeds: bool)
    requires PartName(name) !in dir
    ensures Download(name, BadStatus(message), dir, removeSucceeds) == Run([Starting(name), Failed(name, message)], dir)
  {
  }
}

=== FILE: wrappers.dfy ===
/** Optional values: a form field that may be absent, a header that may be missing. */
module Wrappers {

  datatype Option<+T> = None | Some(value: T) {

    /** The value if present, else the given default (Python's `x or default` for strings). */
    function GetOr(default: T): T
    {
      match this
      case Some(v) => v
      case None => default
    }
  }
}
